=== FILE: README.md ===
# Prevayler snapshot store, modelled in Dafny

Prevayler keeps a prevalent system (an in-memory object graph) durable. It
logs every transaction and periodically writes a full snapshot of the system
to a directory. `SnapshotManager` owns that directory. It names one file per
snapshot version and finds the latest version by listing the directory. At
construction it recovers the system from that file. It writes new snapshots
through a temp file that is renamed into place.

This project models that class as pure functions and two small methods:

- `results.dfy`, module `Results`: the exceptions the class can raise, as
  `Result` / `Outcome` / `Option` values.
- `java_string.dfy`, module `JavaString`: the `java.lang.String`
  operations used on names, on strings of `char`.
  - `EndsWith` is `endsWith` (SnapshotManager.java:113). `IndexOfSuffix`
    relates it to `IndexOf`, and `EndsWithTail` says it depends only on
    the end of the name.
  - `IndexOf` is `indexOf` (line 114).
  - `LexLess` is `compareTo(...) < 0`, the order the zero padding of line
    105 exists for. `LexLessIrreflexive`, `LexLessAsymmetric`,
    `LexLessAppend` and `NameOrder` state its meaning.
- `java_long.dfy`, module `JavaLong`: the 64-bit `long` range.
  - `LongToString` is the `long` concatenation at lines 36 and 105. Its
    inverse is `ParseLong` (`parseLong`, line 114), and
    `ParseLongToString` connects the two.
  - It also holds fixed-width decimal renderings (`Digits`) and their
    lexical order (`DigitsOrder`).
- `snapshot_naming.dfy`, module `SnapshotNaming`:
  - `SnapshotFileName` and its padded head `PaddedVersion` are
    `snapshotFile` (lines 104-107). `CanonicalName`, `PaddedHead` and
    `VersionRoundTrip` state what they denote.
  - `VersionOf` is `version(fileName)` (lines 112-115).
  - `TempFileName` is the name `File.createTempFile` gives at line 36.
    `TempNameIgnored` and `TempIsNotCanonical` state what it means.
- `snapshot_store.dfy`, module `SnapshotStore`: the directory is a
  `map<string, Blob>`; `None` stands for a directory whose listing returns
  `null`. It also holds the scan of `latestVersion()`, `readSnapshot`, the
  constructor's recovery choice, and the three steps of `writeSnapshot`
  with each way they can fail.

Serialisation is a `Codec`, a pair of functions `encode` / `decode`.
`RoundTrips(codec)` is the promise that `decode(encode(s)) == Some(s)`; the
lemmas that need it take it as a precondition. The suffix returned by
`suffix()` is a parameter, because subclasses override it.
`DefaultSuffix` is `"snapshot"`.

Modelling choices for the environment:

- The order of `File.list()` is unspecified. `LatestVersion` therefore
  picks the next name with `:|`. Its contract holds for every order.
- The unique number `File.createTempFile` puts in a temp name is the
  parameter `nonce`. A write requires that the resulting name is not
  already in the directory, which is what `createTempFile` guarantees.
- Which step of a write fails is the parameter `WriteFault`.

## Behaviour of the code worth knowing

A failed rename leaves no file for that version: line 41 deletes the
canonical file before line 42 attempts the rename.
`SnapshotStore.WriteSnapshot` and `SnapshotStore.FailedRenameLosesSnapshot`
state the result: after a failed rename the previous snapshot of that
version is gone. The new state survives only in the temp file, which
recovery ignores. Files of every other version are untouched in every
outcome.

Any name ending in `"." + suffix()` counts, not only canonical ones, and a
name whose prefix is not a long throws:

- `".snapshot"` and `"notes.snapshot"` make recovery fail, and so does
  `"9223372036854775808.snapshot"`, whose digits exceed the long range.
- An unpadded `"5.snapshot"` sets the latest version to 5. The canonical
  file for 5 is then not found.
- Only the text before the first `"." + suffix()` is parsed, and anything
  after it is ignored. So a copy renamed to
  `"0000000000000000009.snapshot.snapshot"` reads as version 9. On its own
  it sets the latest version to 9, and the canonical file for 9 is then
  not found. `"notes.snapshot.snapshot"` throws on `"notes"`.

## Model

| member | source | states |
|---|---|---|
| `JavaString.IndexOfFrom` | src/main/org/prevayler/implementation/SnapshotManager.java:114 | the result is -1 exactly when the pattern occurs nowhere from the start index on; otherwise the pattern occurs there and at no earlier index from the start |
| `JavaString.IndexOf` | src/main/org/prevayler/implementation/SnapshotManager.java:114 | `indexOf` is -1 exactly when the pattern never occurs; otherwise it is the first occurrence |
| `JavaString.EndsWithTail` | src/main/org/prevayler/implementation/SnapshotManager.java:113 | whether `h + t` ends with a pattern no longer than `t` is decided by `t` alone |
| `JavaString.IndexOfSuffix` | src/main/org/prevayler/implementation/SnapshotManager.java:113-114 | once `endsWith` holds, `indexOf` finds an occurrence, so the substring in `version` is well defined |
| `JavaLong.Decimal` | src/main/org/prevayler/implementation/SnapshotManager.java:105 | the rendering of a number is non-empty, all digits, has no leading zero unless the number is 0, is a single digit exactly when the number is below 10 (so 0 is "0"), and denotes the number |
| `JavaLong.ParseLong` | src/main/org/prevayler/implementation/SnapshotManager.java:114 | `parseLong` either throws NumberFormatException carrying the text, or succeeds exactly when the text after an optional sign is a non-empty digit string whose signed value lies in the long range. The value is that digit string's decimal value, negated after a '-' |
| `JavaLong.ParseLongPlus` | src/main/org/prevayler/implementation/SnapshotManager.java:114 | a leading '+' before a digit string parses exactly when the bare digits do, and to the same value |
| `JavaLong.ParseLongToString` | src/main/org/prevayler/implementation/SnapshotManager.java:105-114 | `parseLong` inverts `Long.toString` on every long, negatives included |
| `JavaLong.ParseLongDigits` | src/main/org/prevayler/implementation/SnapshotManager.java:114 | an unsigned digit string parses exactly when its value is at most the largest long, and then to that value, leading zeros allowed |
| `JavaLong.ParseLongNegative` | src/main/org/prevayler/implementation/SnapshotManager.java:114 | '-' and a digit string parse exactly when the negated value is at least the smallest long, and then to that negated value |
| `JavaLong.ParseLongOverflow` | src/main/org/prevayler/implementation/SnapshotManager.java:114 | "9223372036854775808", one past the largest long, throws |
| `JavaLong.MisplacedSignRejected` | src/main/org/prevayler/implementation/SnapshotManager.java:114 | `parseLong` throws on text with a '-' or '+' anywhere but in front, whatever its first character |
| `JavaLong.DigitsOrder` | src/main/org/prevayler/implementation/SnapshotManager.java:104-107 | fixed-width renderings of smaller numbers are lexically smaller |
| `SnapshotNaming.CanonicalName` | src/main/org/prevayler/implementation/SnapshotManager.java:104-107 | for every version >= 0 the name is exactly 19 decimal digits denoting the version, left-padded with '0', then "." and the suffix |
| `SnapshotNaming.PaddedHead` | src/main/org/prevayler/implementation/SnapshotManager.java:105-106 | prepending nineteen zeros and keeping the last 19 characters yields the 19-digit rendering of a non-negative version |
| `SnapshotNaming.NameOrder` | src/main/org/prevayler/implementation/SnapshotManager.java:104-107 | `compareTo` orders two canonical names exactly as their versions are ordered, in both directions |
| `SnapshotNaming.CanonicalOrder` | src/main/org/prevayler/implementation/SnapshotManager.java:104-107 | a smaller version has a lexically smaller canonical name |
| `SnapshotNaming.VersionOf` | src/main/org/prevayler/implementation/SnapshotManager.java:112-115 | a name without the "." + suffix ending gives -1, and only names with that ending can throw |
| `SnapshotNaming.VersionBeforeFirstMarker` | src/main/org/prevayler/implementation/SnapshotManager.java:112-115 | in any name that ends with "." + suffix, `version` is `parseLong` of the text before the first "." + suffix, whatever '.'s that text holds and whatever follows that first marker |
| `SnapshotNaming.UnparseableBeforeFirstMarkerThrows` | src/main/org/prevayler/implementation/SnapshotManager.java:113-114 | a name ending with "." + suffix whose text before the first "." + suffix is not a long throws NumberFormatException carrying that text, however the name continues |
| `SnapshotNaming.ResuffixedCopyVersion` | src/main/org/prevayler/implementation/SnapshotManager.java:104-115 | a canonical name with "." + suffix appended once more still reads as its version |
| `SnapshotNaming.ResuffixedNameThrows` | src/main/org/prevayler/implementation/SnapshotManager.java:113-114 | "notes.snapshot.snapshot" throws on "notes" |
| `SnapshotNaming.VersionOfPrefix` | src/main/org/prevayler/implementation/SnapshotManager.java:112-115 | for a name `prefix + "." + suffix` whose only marker is at its end, `version` is `parseLong` of that prefix, whatever '.'s it holds |
| `SnapshotNaming.VersionOfDotFreePrefix` | src/main/org/prevayler/implementation/SnapshotManager.java:112-115 | for a name made of a '.'-free prefix, ".", and the suffix, `version` is `parseLong` of that prefix |
| `SnapshotNaming.VersionRoundTrip` | src/main/org/prevayler/implementation/SnapshotManager.java:104-115 | `version` of the canonical name of any version >= 0 is that version |
| `SnapshotNaming.UnparseablePrefixThrows` | src/main/org/prevayler/implementation/SnapshotManager.java:113-114 | a name `prefix + "." + suffix` whose only marker is at its end and whose prefix is not a long throws NumberFormatException carrying the prefix, instead of giving -1 |
| `SnapshotNaming.DottedPrefixThrows` | src/main/org/prevayler/implementation/SnapshotManager.java:113-114 | "1.5.snapshot" throws on "1.5": only the first ".snapshot" ends the version text |
| `SnapshotNaming.PlusSignedNameVersion` | src/main/org/prevayler/implementation/SnapshotManager.java:113-114 | "+5.snapshot" counts as version 5, because `parseLong` accepts a leading '+' |
| `SnapshotNaming.DefaultSuffixExamples` | src/main/org/prevayler/implementation/SnapshotManager.java:65-67 | with the default suffix, ".snapshot" and "notes.snapshot" throw |
| `SnapshotNaming.UnpaddedNameVersion` | src/main/org/prevayler/implementation/SnapshotManager.java:112-115 | an unpadded name such as "5.snapshot" still denotes its version |
| `SnapshotNaming.DotFreeNameIgnored` | src/main/org/prevayler/implementation/SnapshotManager.java:113 | a name containing no '.' gives -1 whatever the suffix |
| `SnapshotNaming.TempNameIgnored` | src/main/org/prevayler/implementation/SnapshotManager.java:36 | temp names ending in "generatingSnapshot" contain no '.', so `version` gives -1 for them under every suffix |
| `SnapshotNaming.ForeignSnapshotIgnored` | src/main/org/prevayler/implementation/SnapshotManager.java:63-67 | canonical names written under any other suffix give -1, whether that suffix is shorter or longer, unless its dotted form ends with this one's |
| `SnapshotNaming.XmlReaderIgnoresDefaultSnapshots` | src/main/org/prevayler/implementation/SnapshotManager.java:63-67 | a reader with suffix "XmlSnapshot" gives -1 for every canonical name written with the default "snapshot" suffix |
| `SnapshotNaming.OverflowingNameThrows` | src/main/org/prevayler/implementation/SnapshotManager.java:112-115 | a name whose digits exceed the long range, such as "9223372036854775808.snapshot", throws instead of giving -1 |
| `SnapshotNaming.NegativeVersionUnreadable` | src/main/org/prevayler/implementation/SnapshotManager.java:104-115 | as written, version -1 is named "00000000000000000-1." + suffix, which `version` cannot parse |
| `SnapshotNaming.NegativeVersionAliases` | src/main/org/prevayler/implementation/SnapshotManager.java:104-115 | as written, a negative version of 19 digits (other than the smallest long) loses its '-' when cut to 19 characters, and `version` reads its name as the positive version of the same magnitude |
| `SnapshotStore.LatestIsUnique` | src/main/org/prevayler/implementation/SnapshotManager.java:69-81 | the latest-version characterisation admits one value per listing |
| `SnapshotStore.LatestVersion` | src/main/org/prevayler/implementation/SnapshotManager.java:69-81 | an unlistable directory throws. Otherwise the scan succeeds exactly when every name parses and then returns the latest version: >= 0, >= every parsed version, 0 when no name is positive, else a version some name denotes. A failure carries the error of some unparseable name |
| `SnapshotStore.ReadSnapshot` | src/main/org/prevayler/implementation/SnapshotManager.java:83-101 | reading a version opens its canonical file: absent gives file-not-found, undecodable gives a corrupt-snapshot error, and a present file that decodes is read successfully as its decoded contents; nothing else succeeds |
| `SnapshotStore.RecoverAt` | src/main/org/prevayler/implementation/SnapshotManager.java:24-27 | version 0 keeps the original object and reads nothing; any other version succeeds exactly when its canonical file decodes, yielding that decoding and that version |
| `SnapshotStore.Recover` | src/main/org/prevayler/implementation/SnapshotManager.java:22-28 | the constructor fails on an unlistable directory or an unparseable name. Otherwise it recovers at the latest version: the original object when that is 0, else the decoded canonical file; the recovered version is the latest version |
| `SnapshotStore.WriteSnapshot` | src/main/org/prevayler/implementation/SnapshotManager.java:35-43 | on success the canonical file holds the encoded state and the temp file is gone. A failed rename throws with the canonical file removed and the temp file holding the encoded state. Earlier failures leave the canonical file untouched. Every other entry is unchanged, and the canonical file is never partly written |
| `SnapshotStore.TempIsNotCanonical` | src/main/org/prevayler/implementation/SnapshotManager.java:36-40 | the temp file a write creates never has the canonical name of any snapshot |
| `SnapshotStore.IgnoredNameIsNotCanonical` | src/main/org/prevayler/implementation/SnapshotManager.java:104-115 | a name `version` reads as -1 is never the canonical name of a non-negative version |
| `SnapshotStore.IgnoredEntryIrrelevant` | src/main/org/prevayler/implementation/SnapshotManager.java:69-81 | adding an entry whose name gives -1 changes neither whether recovery can parse the listing, nor the latest version, nor what recovery reads |
| `SnapshotStore.LeftoverTempIgnored` | src/main/org/prevayler/implementation/SnapshotManager.java:36 | a temp file left behind by an interrupted write changes nothing about recovery |
| `SnapshotStore.FailedRenameLosesSnapshot` | src/main/org/prevayler/implementation/SnapshotManager.java:40-42 | after a failed rename the canonical file of that version is absent, and the directory recovers exactly as if that file had been deleted |
| `SnapshotStore.WriteThenRecover` | src/main/org/prevayler/implementation/SnapshotManager.java:22-43 | after a successful write at a positive version no lower than any on disk, recovery picks that version and returns exactly the state written |
| `SnapshotStore.ZeroSnapshotIgnored` | src/main/org/prevayler/implementation/SnapshotManager.java:24-26 | a directory holding only the version-0 file recovers the original object without reading the file |
| `SnapshotStore.AddCanonical` | src/main/org/prevayler/implementation/SnapshotManager.java:69-81 | adding or replacing the canonical file of a version keeps every name parseable, and the latest version becomes the larger of the old latest and that version |
| `SnapshotStore.ThreeSnapshots` | src/main/org/prevayler/implementation/SnapshotManager.java:69-81 | a directory with snapshots 3, 7 and 19 has latest version 19 |
| `SnapshotStore.NewestSnapshotChosen` | src/main/org/prevayler/implementation/SnapshotManager.java:22-28 | with snapshots 3, 7, 19 and a leftover temp file, recovery decodes the version-19 file, and succeeds exactly when it decodes |
| `SnapshotStore.UnpaddedNameNotFound` | src/main/org/prevayler/implementation/SnapshotManager.java:22-28 | a lone "5.snapshot" makes 5 the latest version, and recovery then fails because the canonical file for 5 does not exist |
| `SnapshotStore.ResuffixedCopyNotFound` | src/main/org/prevayler/implementation/SnapshotManager.java:22-28 | a lone canonical name of version 9 with "." + suffix appended once more makes 9 the latest version, and recovery then fails because the canonical file for 9 does not exist |

## Left out

- `FileManager.produceDirectory` (line 23) creates the directory. That
  class is not part of this model; the directory is taken as given.
- Java object serialisation and stream opening and closing (lines 46-60,
  89-101) are foreign I/O. They are the `Codec` pair. Every
  `ClassNotFoundException` or `IOException` from reading is one
  `CorruptSnapshot` error.
- `File.createTempFile` uniqueness and its own failure causes are not
  modelled. The fresh number is the parameter `nonce`, and a failure to
  create the file is the `TempCreationFault` outcome.
- `File.delete()` (line 41) is treated as always succeeding; the code
  ignores its return value.
- `renameTo` atomicity, crash timing, and concurrency with live
  transactions are environment guarantees. A rename either succeeds or
  fails. A crash between steps leaves one of the directories that
  `WriteSnapshot` describes for a failure at that step.
- JavaLong.ParseLong: accepts only ASCII digits. `Character.digit` also
  accepts other Unicode decimal digits, so a name built from those would
  parse in Java but throws in the model. The `'+'` sign is accepted, as in
  Java 7 and later.
- SnapshotStore.LatestVersion: when several names cannot be parsed, Java
  reports the first one in listing order. Listing order is unspecified, so
  the contract only says the error belongs to some unparseable name.
- `TransactionLogger` (an interface whose one promise is a comment about
  the first `update` call) and the transaction replay coordinator are not
  part of this model. The concrete logger and the replay code are not
  among the files modelled.
- The demo transaction `NameChange` is domain logic of the tutorial and is
  not part of this model.

=== FILE: java_long.dfy ===
/** Java's 64-bit `long`, its decimal rendering (`Long.toString`, string
    concatenation) and `Long.parseLong`, which is partial: it throws
    NumberFormatException on text that is not a decimal long. */
module JavaLong {
  import opened Results
  import JavaString

  const MinLong: int := -0x8000_0000_0000_0000
  const MaxLong: int := 0x7FFF_FFFF_FFFF_FFFF

  /** The values of Java's `long`. */
  type Long = x: int | MinLong <= x <= MaxLong

  function Pow10(w: nat): nat {
    if w == 0 then 1 else 10 * Pow10(w - 1)
  }

  /** Every long fits in 19 decimal digits. */
  lemma MaxLongBelowPow10()
    ensures MaxLong < Pow10(19)
  {
    Pow10Of18();
    assert Pow10(19) == 10 * Pow10(18);
  }

  lemma Pow10Of18()
    ensures Pow10(18) == 1_000_000_000_000_000_000
  {
    assert Pow10(4) == 10_000;
    assert Pow10(8) == 10_000 * Pow10(4);
    assert Pow10(12) == 10_000 * Pow10(8);
    assert Pow10(16) == 10_000 * Pow10(12);
    assert Pow10(18) == 100 * Pow10(16);
  }

  predicate IsDigit(c: char) {
    '0' <= c <= '9'
  }

  predicate AllDigits(s: string) {
    forall i :: 0 <= i < |s| ==> IsDigit(s[i])
  }

  function DigitChar(d: int): (c: char)
    requires 0 <= d <= 9
    ensures IsDigit(c)
  {
    ['0', '1', '2', '3', '4', '5', '6', '7', '8', '9'][d]
  }

  function DigitValue(c: char): (d: nat)
    requires IsDigit(c)
    ensures d <= 9 && DigitChar(d) == c
  {
    (c as int) - ('0' as int)
  }

  /** The number a string of decimal digits denotes, most significant first. */
  function DecimalValue(s: string): nat
    requires AllDigits(s)
  {
    if |s| == 0 then 0
    else 10 * DecimalValue(s[..|s| - 1]) + DigitValue(s[|s| - 1])
  }

  /** The shortest decimal rendering of a non-negative number, as
      `Long.toString` writes it. */
  function Decimal(n: nat): (r: string)
    ensures |r| > 0 && AllDigits(r)
    ensures DecimalValue(r) == n
    ensures n > 0 ==> r[0] != '0'
    ensures n < 10 <==> |r| == 1
  {
    if n < 10 then [DigitChar(n)]
    else
      var prefix := Decimal(n / 10);
      var r := prefix + [DigitChar(n % 10)];
      assert r[..|r| - 1] == prefix;
      r
  }

  /** `Long.toString(v)`, which is also what `"…" + v` appends. */
  function LongToString(v: Long): string {
    if v < 0 then "-" + Decimal(-(v as int)) else Decimal(v)
  }

  /** The text after an optional leading '-' or '+'. */
  function Unsigned(s: string): string {
    if |s| > 0 && (s[0] == '-' || s[0] == '+') then s[1..] else s
  }

  /** `Long.parseLong(s)`: an optional sign, then at least one decimal digit,
      denoting a value within the range of a long. */
  function ParseLong(s: string): (r: Result<Long>)
    ensures r.Failure? ==> r.error == NumberFormat(s)
    ensures r.Success? ==>
      && |Unsigned(s)| > 0 && AllDigits(Unsigned(s))
      && r.value == (if s[0] == '-' then -(DecimalValue(Unsigned(s)) as int) else DecimalValue(Unsigned(s)))
    ensures r.Success? <==>
      && |Unsigned(s)| > 0 && AllDigits(Unsigned(s))
      && MinLong <= (if s[0] == '-' then -(DecimalValue(Unsigned(s)) as int) else DecimalValue(Unsigned(s))) <= MaxLong
  {
    var digits := Unsigned(s);
    if |digits| == 0 || !AllDigits(digits) then Failure(NumberFormat(s))
    else
      var magnitude: int := DecimalValue(digits);
      var value: int := if s[0] == '-' then -magnitude else magnitude;
      if MinLong <= value <= MaxLong then Success(value) else Failure(NumberFormat(s))
  }

  /** parseLong inverts toString on every long. */
  lemma ParseLongToString(v: Long)
    ensures ParseLong(LongToString(v)) == Success(v)
  {
    var s := LongToString(v);
    if v < 0 {
      var d := Decimal(-(v as int));
      assert s == "-" + d && s[1..] == d;
      assert s[0] == '-';
      assert ParseLong(s) == Success(v);
    } else {
      var d := Decimal(v);
      assert s == d && IsDigit(s[0]);
      assert ParseLong(s) == Success(v);
    }
  }

  /** An unsigned digit string parses exactly when its value fits in a
      long, and then to that value. */
  lemma ParseLongDigits(s: string)
    requires |s| > 0 && AllDigits(s)
    ensures ParseLong(s).Success? <==> DecimalValue(s) <= MaxLong
    ensures ParseLong(s).Success? ==> ParseLong(s).value == DecimalValue(s)
  {
    assert IsDigit(s[0]);
    assert Unsigned(s) == s;
  }

  /** A '-' followed by digits parses exactly when the negated value is
      at least MinLong, and then to that negated value. */
  lemma ParseLongNegative(d: string)
    requires |d| > 0 && AllDigits(d)
    ensures ParseLong("-" + d).Success? <==> DecimalValue(d) <= -MinLong
    ensures ParseLong("-" + d).Success? ==> ParseLong("-" + d).value == -(DecimalValue(d) as int)
  {
    assert Unsigned("-" + d) == d;
  }

  /** A leading '+' is accepted and changes nothing but the text a
      failure carries. */
  lemma ParseLongPlus(d: string)
    requires |d| > 0 && AllDigits(d)
    ensures ParseLong("+" + d).Success? <==> ParseLong(d).Success?
    ensures ParseLong(d).Success? ==> ParseLong("+" + d) == ParseLong(d)
  {
    assert Unsigned("+" + d) == d;
    assert IsDigit(d[0]);
    assert Unsigned(d) == d;
  }

  /** One past the largest long overflows and throws. */
  lemma ParseLongOverflow()
    ensures ParseLong(Decimal(MaxLong + 1)) == Failure(NumberFormat(Decimal(MaxLong + 1)))
  {
    ParseLongDigits(Decimal(MaxLong + 1));
  }

  /** parseLong accepts a sign only in front. */
  lemma MisplacedSignRejected(s: string)
    requires exists i :: 0 < i < |s| && (s[i] == '-' || s[i] == '+')
    ensures ParseLong(s) == Failure(NumberFormat(s))
  {
    var i :| 0 < i < |s| && (s[i] == '-' || s[i] == '+');
    if s[0] == '-' || s[0] == '+' {
      assert Unsigned(s)[i - 1] == s[i];
      assert !IsDigit(Unsigned(s)[i - 1]);
    } else {
      assert !IsDigit(Unsigned(s)[i]);
    }
  }

  function Zeros(k: nat): (z: string)
    ensures |z| == k && AllDigits(z)
  {
    seq(k, _ => '0')
  }

  /** The `w` low decimal digits of `n`, most significant first. */
  function Digits(n: nat, w: nat): string {
    if w == 0 then [] else Digits(n / 10, w - 1) + [DigitChar(n % 10)]
  }

  /** A fixed-width rendering is exactly `w` digits and, when `n` fits,
      denotes `n`. */
  lemma {:induction false} DigitsValue(n: nat, w: nat)
    ensures |Digits(n, w)| == w && AllDigits(Digits(n, w))
    ensures n < Pow10(w) ==> DecimalValue(Digits(n, w)) == n
  {
    if w > 0 {
      DigitsValue(n / 10, w - 1);
      var s := Digits(n, w);
      assert s[..|s| - 1] == Digits(n / 10, w - 1);
    }
  }

  /** Zero-padding the shortest rendering gives the fixed-width one. */
  lemma PaddedDecimalIsDigits(n: nat, k: nat)
    ensures Zeros(k) + Decimal(n) == Digits(n, |Decimal(n)| + k)
  {
    ZerosAreDigitsOfZero(k);
    PaddedDecimal(n, k);
  }

  lemma {:induction false} PaddedDecimal(n: nat, k: nat)
    ensures Digits(0, k) + Decimal(n) == Digits(n, |Decimal(n)| + k)
    decreases n, 1
  {
    if n < 10 {
      assert Decimal(n) == [DigitChar(n)];
      assert Digits(n, k + 1) == Digits(0, k) + [DigitChar(n)];
    } else {
      PaddedDecimalStep(n, k);
    }
  }

  lemma {:induction false} PaddedDecimalStep(n: nat, k: nat)
    requires n >= 10
    ensures Digits(0, k) + Decimal(n) == Digits(n, |Decimal(n)| + k)
    decreases n, 0
  {
    var last := [DigitChar(n % 10)];
    var prefix := Decimal(n / 10);
    PaddedDecimal(n / 10, k);
    assert Decimal(n) == prefix + last;
    assert Digits(n, |prefix| + k + 1) == Digits(n / 10, |prefix| + k) + last;
    assert Digits(0, k) + (prefix + last) == (Digits(0, k) + prefix) + last;
  }

  lemma {:induction false} ZerosAreDigitsOfZero(k: nat)
    ensures Digits(0, k) == Zeros(k)
  {
    if k > 0 {
      ZerosAreDigitsOfZero(k - 1);
      assert Zeros(k) == Zeros(k - 1) + ['0'];
    }
  }

  /** The shortest rendering of a number below 10^w has at most w digits. */
  lemma {:induction false} DecimalLength(n: nat, w: nat)
    requires 1 <= w && n < Pow10(w)
    ensures |Decimal(n)| <= w
    decreases w
  {
    if n >= 10 {
      assert w != 1 by { assert Pow10(1) == 10; }
      assert n / 10 < Pow10(w - 1);
      DecimalLength(n / 10, w - 1);
    }
  }

  /** A number of at least 10^(w-1) needs at least w digits. */
  lemma {:induction false} DecimalLengthAtLeast(n: nat, w: nat)
    requires 1 <= w && Pow10(w - 1) <= n
    ensures w <= |Decimal(n)|
    decreases w
  {
    if w > 1 {
      assert n >= 10 by { assert Pow10(w - 1) == 10 * Pow10(w - 2); Pow10Positive(w - 2); }
      assert Pow10(w - 2) <= n / 10;
      DecimalLengthAtLeast(n / 10, w - 1);
      assert Decimal(n) == Decimal(n / 10) + [DigitChar(n % 10)];
    }
  }

  lemma {:induction false} Pow10Positive(w: nat)
    ensures 1 <= Pow10(w)
  {
    if w > 0 { Pow10Positive(w - 1); }
  }

  /** Of two fixed-width renderings, the smaller number's sorts first. */
  lemma {:induction false} DigitsOrder(a: nat, b: nat, w: nat)
    requires a < b < Pow10(w)
    ensures JavaString.LexLess(Digits(a, w), Digits(b, w))
    decreases w
  {
    if w == 0 {
      assert false;
    } else if a / 10 < b / 10 {
      assert b / 10 < Pow10(w - 1);
      DigitsOrder(a / 10, b / 10, w - 1);
      DigitsValue(a / 10, w - 1);
      DigitsValue(b / 10, w - 1);
      JavaString.LexLessAppend(Digits(a / 10, w - 1), Digits(b / 10, w - 1),
                               [DigitChar(a % 10)], [DigitChar(b % 10)]);
    } else {
      assert a % 10 < b % 10;
      assert DigitChar(a % 10) < DigitChar(b % 10);
      JavaString.LexLessLast(Digits(a / 10, w - 1), DigitChar(a % 10), DigitChar(b % 10));
    }
  }
}

=== FILE: java_string.dfy ===
/** The java.lang.String operations the snapshot store relies on, over
    strings as sequences of Dafny `char`s (Unicode scalar values). Java's
    strings are UTF-16 code units, so `LexLess` orders a supplementary
    character differently from Java's `compareTo`; every comparison the
    snapshot store relies on is between digits, '.' and the suffix. */
module JavaString {

  /** `s.endsWith(p)`. */
  predicate EndsWith(s: string, p: string) {
    |p| <= |s| && s[|s| - |p|..] == p
  }

  /** Whether `h + t` ends with a pattern no longer than `t` depends on `t`
      alone. */
  lemma EndsWithTail(h: string, t: string, p: string)
    requires |p| <= |t|
    ensures EndsWith(h + t, p) <==> EndsWith(t, p)
  {
    assert (h + t)[|h + t| - |p|..] == t[|t| - |p|..];
  }

  /** `pat` occurs in `s` starting at index `k`. */
  predicate OccursAt(s: string, pat: string, k: int) {
    0 <= k && k + |pat| <= |s| && s[k..k + |pat|] == pat
  }

  /** The first occurrence of `pat` in `s` at or after `from`, or -1. This is
      Java's `s.indexOf(pat, from)` except that Java returns |s| for an empty
      pattern when `from` > |s|; the snapshot store only searches from 0 for
      a non-empty pattern. */
  function IndexOfFrom(s: string, pat: string, from: nat): (r: int)
    ensures r == -1 || from <= r
    ensures r != -1 ==> OccursAt(s, pat, r)
    ensures r != -1 ==> forall k :: from <= k < r ==> !OccursAt(s, pat, k)
    ensures r == -1 ==> forall k :: from <= k ==> !OccursAt(s, pat, k)
    decreases |s| - from
  {
    if |s| < from + |pat| then -1
    else if s[from..from + |pat|] == pat then from
    else IndexOfFrom(s, pat, from + 1)
  }

  /** `s.indexOf(pat)`: the first index at which `pat` occurs in `s`, or -1. */
  function IndexOf(s: string, pat: string): (r: int)
    ensures r == -1 <==> forall k :: !OccursAt(s, pat, k)
    ensures r != -1 ==> OccursAt(s, pat, r) && forall k :: 0 <= k < r ==> !OccursAt(s, pat, k)
  {
    IndexOfFrom(s, pat, 0)
  }

  /** When `s` ends with `pat`, indexOf finds an occurrence, no later than
      the one at the end. */
  lemma IndexOfSuffix(s: string, pat: string)
    requires EndsWith(s, pat)
    ensures 0 <= IndexOf(s, pat) <= |s| - |pat|
  {
    assert OccursAt(s, pat, |s| - |pat|);
  }

  /** `a.compareTo(b) < 0`: the first differing char of `a` is smaller, or
      `a` is a proper prefix of `b`. */
  predicate LexLess(a: string, b: string)
    decreases |a|
  {
    if |a| == 0 then |b| > 0
    else if |b| == 0 then false
    else if a[0] != b[0] then a[0] < b[0]
    else LexLess(a[1..], b[1..])
  }

  /** No string precedes itself. */
  lemma {:induction false} LexLessIrreflexive(a: string)
    ensures !LexLess(a, a)
    decreases |a|
  {
    if |a| > 0 {
      LexLessIrreflexive(a[1..]);
    }
  }

  /** The order is asymmetric. */
  lemma {:induction false} LexLessAsymmetric(a: string, b: string)
    requires LexLess(a, b)
    ensures !LexLess(b, a)
    decreases |a|
  {
    if |a| > 0 && |b| > 0 && a[0] == b[0] {
      LexLessAsymmetric(a[1..], b[1..]);
    }
  }

  /** Appending anything to two equal-length strings keeps their order. */
  lemma {:induction false} LexLessAppend(a: string, b: string, p: string, q: string)
    requires |a| == |b| && LexLess(a, b)
    ensures LexLess(a + p, b + q)
    decreases |a|
  {
    assert (a + p)[0] == a[0] && (b + q)[0] == b[0];
    if a[0] == b[0] {
      assert (a + p)[1..] == a[1..] + p;
      assert (b + q)[1..] == b[1..] + q;
      LexLessAppend(a[1..], b[1..], p, q);
    }
  }

  /** Two strings that agree up to a last char are ordered by that char. */
  lemma {:induction false} LexLessLast(a: string, x: char, y: char)
    requires x < y
    ensures LexLess(a + [x], a + [y])
    decreases |a|
  {
    if |a| > 0 {
      assert (a + [x])[1..] == a[1..] + [x];
      assert (a + [y])[1..] == a[1..] + [y];
      LexLessLast(a[1..], x, y);
    }
  }
}

=== FILE: results.dfy ===
/** Failure-carrying values for the snapshot store: a computation either yields
    a value or the exception the Java code would have thrown. */
module Results {

  /** The exceptions the snapshot store can raise, one constructor per cause. */
  datatype Error =
    | ListingUnavailable              // File.list() returned null (IOException)
    | NumberFormat(text: string)      // Long.parseLong rejected its argument
    | FileNotFound(fileName: string)  // the snapshot file to read does not exist
    | CorruptSnapshot(fileName: string) // the codec could not decode the file
    | TempCreationFailed              // File.createTempFile raised an IOException
    | SerialisationFailed             // writing the temp file raised an IOException
    | RenameFailed(temp: string, permanent: string) // renameTo returned false

  /** A value that may be absent. */
  datatype Option<+T> = None | Some(value: T)

  /** A value of type T, or the exception that replaced it. */
  datatype Result<+T> = Success(value: T) | Failure(error: Error) {
    predicate IsFailure() { Failure? }

    function PropagateFailure<U>(): Result<U>
      requires Failure?
    {
      Failure(error)
    }

    function Extract(): T
      requires Success?
    {
      value
    }
  }

  /** The outcome of a void method: it returned normally or it threw. */
  datatype Outcome = Pass | Fail(error: Error)
}

=== FILE: snapshot_naming.dfy ===
/** How SnapshotManager names its files: the canonical name of a version,
    the version a file name denotes, and the name of the temporary file a
    write goes through. The suffix is a parameter because subclasses may
    override `suffix()`; the default is `DefaultSuffix`. */
module SnapshotNaming {
  import opened Results
  import opened JavaString
  import opened JavaLong

  /** What `suffix()` returns unless overridden. */
  const DefaultSuffix: string := "snapshot"

  /** The padding `snapshotFile` prepends before cutting to 19 characters. */
  const ZeroPrefix: string := "0000000000000000000"

  /** The suffix `writeSnapshot` passes to `File.createTempFile`. */
  const TempSuffix: string := "generatingSnapshot"

  /** The name of `snapshotFile(version)`: the last 19 characters of the
      version appended to nineteen zeros, then "." and the suffix. */
  function SnapshotFileName(suffix: string, version: Long): string {
    PaddedVersion(version) + "." + suffix
  }

  /** `fileName.substring(fileName.length() - 19)` where fileName is the
      version appended to nineteen zeros. */
  function PaddedVersion(version: Long): string {
    var fileName := ZeroPrefix + LongToString(version);
    fileName[|fileName| - 19..]
  }

  /** `version(fileName)`: -1 for a name without the "." + suffix ending,
      otherwise the text before the first "." + suffix read by
      `Long.parseLong`, which throws when that text is not a long. */
  function VersionOf(suffix: string, fileName: string): (r: Result<Long>)
    ensures !EndsWith(fileName, "." + suffix) ==> r == Success(-1)
    ensures r.Failure? ==> EndsWith(fileName, "." + suffix)
  {
    var marker := "." + suffix;
    if !EndsWith(fileName, marker) then Success(-1)
    else
      IndexOfSuffix(fileName, marker);
      ParseLong(fileName[..IndexOf(fileName, marker)])
  }

  /** The name `File.createTempFile("snapshot" + version + "temp",
      "generatingSnapshot", directory)` creates; `nonce` stands for the
      number the JDK chooses to make the name unique. */
  function TempFileName(version: Long, nonce: nat): string {
    "snapshot" + LongToString(version) + "temp" + Decimal(nonce) + TempSuffix
  }

  /** For a non-negative version the canonical name is exactly 19 decimal
      digits denoting the version, then ".", then the suffix. */
  lemma CanonicalName(suffix: string, version: Long)
    requires 0 <= version
    ensures SnapshotFileName(suffix, version) == Digits(version, 19) + ("." + suffix)
    ensures |Digits(version, 19)| == 19 && AllDigits(Digits(version, 19))
    ensures DecimalValue(Digits(version, 19)) == version
  {
    var head := PaddedVersion(version);
    PaddedHead(version);
    assert head + "." + suffix == head + ("." + suffix);
    MaxLongBelowPow10();
    DigitsValue(version, 19);
  }

  /** The 19 characters `snapshotFile` keeps are the fixed-width rendering. */
  lemma PaddedHead(version: Long)
    requires 0 <= version
    ensures PaddedVersion(version) == Digits(version, 19)
  {
    var d := Decimal(version);
    assert LongToString(version) == d;
    MaxLongBelowPow10();
    DecimalLength(version, 19);
    var k: nat := 19 - |d|;
    LastNineteen(d);
    var fileName := ZeroPrefix + d;
    assert fileName[|fileName| - 19..] == Zeros(k) + d;
    PaddedDecimalIsDigits(version, k);
    assert |d| + k == 19;
    assert Zeros(k) + d == Digits(version, 19);
  }

  /** Cutting the zero-padded rendering to its last 19 characters leaves
      exactly enough zeros in front to make it 19 wide. */
  lemma LastNineteen(d: string)
    requires |d| <= 19
    ensures var fileName := ZeroPrefix + d; fileName[|fileName| - 19..] == Zeros(19 - |d|) + d
  {
    var fileName := ZeroPrefix + d;
    assert ZeroPrefix == Zeros(19);
    assert fileName[|fileName| - 19..] == ZeroPrefix[|d|..] + d;
  }

  /** A smaller version has a lexically smaller canonical name. */
  lemma CanonicalOrder(suffix: string, a: Long, b: Long)
    requires 0 <= a < b
    ensures LexLess(SnapshotFileName(suffix, a), SnapshotFileName(suffix, b))
  {
    CanonicalName(suffix, a);
    CanonicalName(suffix, b);
    MaxLongBelowPow10();
    var da, db := Digits(a, 19), Digits(b, 19);
    DigitsOrder(a, b, 19);
    LexLessAppend(da, db, "." + suffix, "." + suffix);
  }

  /** Canonical names sort lexically exactly as their versions sort. */
  lemma NameOrder(suffix: string, a: Long, b: Long)
    requires 0 <= a && 0 <= b
    ensures LexLess(SnapshotFileName(suffix, a), SnapshotFileName(suffix, b)) <==> a < b
  {
    if a < b {
      CanonicalOrder(suffix, a, b);
    } else if b < a {
      CanonicalOrder(suffix, b, a);
      LexLessAsymmetric(SnapshotFileName(suffix, b), SnapshotFileName(suffix, a));
    } else {
      LexLessIrreflexive(SnapshotFileName(suffix, a));
    }
  }

  /** In a name that ends with "." + suffix, `version` parses the text
      before the FIRST occurrence of "." + suffix and ignores whatever
      follows it, further markers included. */
  lemma VersionBeforeFirstMarker(suffix: string, prefix: string, rest: string)
    requires EndsWith(prefix + ("." + suffix) + rest, "." + suffix)
    requires forall k :: 0 <= k < |prefix| ==> !OccursAt(prefix + ("." + suffix) + rest, "." + suffix, k)
    ensures VersionOf(suffix, prefix + ("." + suffix) + rest) == ParseLong(prefix)
  {
    var marker := "." + suffix;
    var name := prefix + marker + rest;
    assert OccursAt(name, marker, |prefix|);
    assert IndexOf(name, marker) == |prefix|;
    assert name[..|prefix|] == prefix;
  }

  /** Such a name whose text before the first marker is not a long throws,
      however the name continues ("notes.snapshot.snapshot"). */
  lemma UnparseableBeforeFirstMarkerThrows(suffix: string, prefix: string, rest: string)
    requires EndsWith(prefix + ("." + suffix) + rest, "." + suffix)
    requires forall k :: 0 <= k < |prefix| ==> !OccursAt(prefix + ("." + suffix) + rest, "." + suffix, k)
    requires ParseLong(prefix).Failure?
    ensures VersionOf(suffix, prefix + ("." + suffix) + rest) == Failure(NumberFormat(prefix))
  {
    VersionBeforeFirstMarker(suffix, prefix, rest);
  }

  /** No marker starts inside a '.'-free prefix, whatever follows it. */
  lemma DotFreeBeforeMarker(suffix: string, prefix: string, rest: string)
    requires '.' !in prefix
    ensures forall k :: 0 <= k < |prefix| ==> !OccursAt(prefix + ("." + suffix) + rest, "." + suffix, k)
  {
    var marker := "." + suffix;
    var name := prefix + marker + rest;
    forall k | 0 <= k < |prefix|
      ensures !OccursAt(name, marker, k)
    {
      assert name[k] == prefix[k] != '.' == marker[0];
    }
  }

  /** A copy of a canonical file renamed with the suffix appended once more
      ("0000000000000000009.snapshot.snapshot") still reads as the version
      it was copied from. */
  lemma ResuffixedCopyVersion(suffix: string, version: Long)
    requires 0 <= version
    ensures VersionOf(suffix, SnapshotFileName(suffix, version) + ("." + suffix)) == Success(version)
  {
    CanonicalName(suffix, version);
    var d := Digits(version, 19);
    var marker := "." + suffix;
    DigitsHaveNoDot(d);
    DotFreeBeforeMarker(suffix, d, marker);
    assert EndsWith(d + marker + marker, marker);
    VersionBeforeFirstMarker(suffix, d, marker);
    ParseLongDigits(d);
  }

  lemma ResuffixedNameThrows()
    ensures VersionOf(DefaultSuffix, "notes.snapshot.snapshot") == Failure(NumberFormat("notes"))
  {
    var marker := "." + DefaultSuffix;
    assert "notes.snapshot.snapshot" == "notes" + marker + marker;
    assert EndsWith("notes" + marker + marker, marker);
    assert '.' !in "notes";
    DotFreeBeforeMarker(DefaultSuffix, "notes", marker);
    assert ParseLong("notes").Failure? by {
      assert !IsDigit("notes"[0]);
    }
    UnparseableBeforeFirstMarkerThrows(DefaultSuffix, "notes", marker);
  }

  /** "." + suffix occurs in `prefix + "." + suffix` first at its end. */
  ghost predicate MarkerFirstAtEnd(suffix: string, prefix: string) {
    forall k :: 0 <= k < |prefix| ==> !OccursAt(prefix + ("." + suffix), "." + suffix, k)
  }

  /** The case of `VersionBeforeFirstMarker` where the name ends at its
      first marker: that prefix is what `version` parses, whatever '.'s it
      holds. */
  lemma VersionOfPrefix(suffix: string, prefix: string)
    requires MarkerFirstAtEnd(suffix, prefix)
    ensures VersionOf(suffix, prefix + ("." + suffix)) == ParseLong(prefix)
  {
    var marker := "." + suffix;
    assert prefix + marker + "" == prefix + marker;
    VersionBeforeFirstMarker(suffix, prefix, "");
  }

  lemma DotFreeMarkerFirstAtEnd(suffix: string, prefix: string)
    requires '.' !in prefix
    ensures MarkerFirstAtEnd(suffix, prefix)
  {
    var marker := "." + suffix;
    var name := prefix + marker;
    forall k | 0 <= k < |prefix|
      ensures !OccursAt(name, marker, k)
    {
      assert name[k] == prefix[k] != '.' == marker[0];
    }
  }

  /** When the text before "." + suffix holds no '.', that text is what
      `version` parses. */
  lemma VersionOfDotFreePrefix(suffix: string, prefix: string)
    requires '.' !in prefix
    ensures VersionOf(suffix, prefix + ("." + suffix)) == ParseLong(prefix)
  {
    DotFreeMarkerFirstAtEnd(suffix, prefix);
    VersionOfPrefix(suffix, prefix);
  }

  /** Round trip: `version(snapshotFile(v).getName()) == v` for every
      non-negative version. */
  lemma VersionRoundTrip(suffix: string, version: Long)
    requires 0 <= version
    ensures VersionOf(suffix, SnapshotFileName(suffix, version)) == Success(version)
  {
    CanonicalName(suffix, version);
    var d := Digits(version, 19);
    DigitsHaveNoDot(d);
    VersionOfDotFreePrefix(suffix, d);
    ParseLongDigits(d);
  }

  /** A name `prefix + "." + suffix` whose only marker is at its end and
      whose prefix is not a long (".snapshot", "notes.snapshot",
      "1.5.snapshot") makes `version` throw rather than return -1. */
  lemma UnparseablePrefixThrows(suffix: string, prefix: string)
    requires MarkerFirstAtEnd(suffix, prefix)
    requires ParseLong(prefix).Failure?
    ensures VersionOf(suffix, prefix + ("." + suffix)) == Failure(NumberFormat(prefix))
  {
    VersionOfPrefix(suffix, prefix);
  }

  lemma DefaultSuffixExamples()
    ensures VersionOf(DefaultSuffix, ".snapshot") == Failure(NumberFormat(""))
    ensures VersionOf(DefaultSuffix, "notes.snapshot") == Failure(NumberFormat("notes"))
  {
    assert ".snapshot" == "" + ("." + DefaultSuffix);
    DotFreeMarkerFirstAtEnd(DefaultSuffix, "");
    UnparseablePrefixThrows(DefaultSuffix, "");
    assert "notes.snapshot" == "notes" + ("." + DefaultSuffix);
    assert ParseLong("notes").Failure? by {
      assert !IsDigit("notes"[0]);
    }
    DotFreeMarkerFirstAtEnd(DefaultSuffix, "notes");
    UnparseablePrefixThrows(DefaultSuffix, "notes");
  }

  /** Only the first "." + suffix ends the version text, so "1.5.snapshot"
      throws on "1.5" instead of being ignored. */
  lemma DottedPrefixThrows()
    ensures VersionOf(DefaultSuffix, "1.5.snapshot") == Failure(NumberFormat("1.5"))
  {
    var marker := "." + DefaultSuffix;
    var name := "1.5" + marker;
    assert "1.5.snapshot" == name;
    forall k | 0 <= k < 3
      ensures !OccursAt(name, marker, k)
    {
      if k == 1 {
        assert name[k + 2] != marker[2];
      } else {
        assert name[k] != marker[0];
      }
    }
    assert ParseLong("1.5").Failure? by {
      assert !IsDigit("1.5"[1]);
      assert Unsigned("1.5") == "1.5";
    }
    UnparseablePrefixThrows(DefaultSuffix, "1.5");
  }

  /** A sign in front of the digits still counts: "+5.snapshot" is
      version 5, because parseLong accepts the '+'. */
  lemma PlusSignedNameVersion()
    ensures VersionOf(DefaultSuffix, "+5.snapshot") == Success(5)
  {
    assert "+5.snapshot" == "+5" + ("." + DefaultSuffix);
    DigitsHaveNoDot("5");
    assert '.' !in "+5";
    VersionOfDotFreePrefix(DefaultSuffix, "+5");
    assert "+5" == "+" + "5";
    ParseLongPlus("5");
    assert DecimalValue("5") == 5;
    ParseLongDigits("5");
  }

  /** A name need not be canonical to count: the unpadded "42.snapshot"
      denotes version 42 just as the canonical name does. */
  lemma UnpaddedNameVersion(suffix: string, version: Long)
    requires 0 <= version
    ensures VersionOf(suffix, LongToString(version) + ("." + suffix)) == Success(version)
  {
    var d := Decimal(version);
    DigitsHaveNoDot(d);
    VersionOfDotFreePrefix(suffix, d);
    ParseLongToString(version);
  }

  lemma DigitsHaveNoDot(s: string)
    requires AllDigits(s)
    ensures '.' !in s
  {
    forall i | 0 <= i < |s|
      ensures s[i] != '.'
    {
      assert IsDigit(s[i]);
    }
  }

  /** A name without any '.' never carries "." + suffix, so `version` gives -1. */
  lemma DotFreeNameIgnored(suffix: string, name: string)
    requires '.' !in name
    ensures VersionOf(suffix, name) == Success(-1)
  {
    if |suffix| + 1 <= |name| {
      assert name[|name| - |suffix| - 1] != '.';
      assert name[|name| - |suffix| - 1..][0] != ("." + suffix)[0];
    }
  }

  lemma LongToStringHasNoDot(version: Long)
    ensures '.' !in LongToString(version)
  {
    var v := LongToString(version);
    if version < 0 {
      var d := Decimal(-(version as int));
      DigitsHaveNoDot(d);
      assert v == "-" + d;
      forall i | 0 <= i < |v|
        ensures v[i] != '.'
      {
        if i > 0 { assert v[i] == d[i - 1]; }
      }
    } else {
      DigitsHaveNoDot(v);
    }
  }

  /** Temporary files contain no '.', so they never carry "." + suffix and
      `version` gives -1 for them, whatever the suffix. */
  lemma TempNameIgnored(suffix: string, version: Long, nonce: nat)
    ensures '.' !in TempFileName(version, nonce)
    ensures VersionOf(suffix, TempFileName(version, nonce)) == Success(-1)
  {
    var v := LongToString(version);
    var n := Decimal(nonce);
    LongToStringHasNoDot(version);
    DigitsHaveNoDot(n);
    var name := TempFileName(version, nonce);
    assert name == "snapshot" + v + "temp" + n + TempSuffix;
    forall i | 0 <= i < |name|
      ensures name[i] != '.'
    {
      if i < 8 {
      } else if i < 8 + |v| {
        assert name[i] == v[i - 8];
      } else if i < 12 + |v| {
      } else if i < 12 + |v| + |n| {
        assert name[i] == n[i - 12 - |v|];
      } else {
        assert name[i] == TempSuffix[i - 12 - |v| - |n|];
      }
    }
    DotFreeNameIgnored(suffix, name);
  }

  /** The 19 characters kept from the padded version never include '.'. */
  lemma PaddedVersionHasNoDot(version: Long)
    ensures |PaddedVersion(version)| == 19 && '.' !in PaddedVersion(version)
  {
    var v := LongToString(version);
    LongToStringHasNoDot(version);
    var fileName := ZeroPrefix + v;
    var head := PaddedVersion(version);
    forall i | 0 <= i < 19
      ensures head[i] != '.'
    {
      var j := |fileName| - 19 + i;
      assert head[i] == fileName[j];
      if j < 19 {
        assert fileName[j] == ZeroPrefix[j];
      } else {
        assert fileName[j] == v[j - 19];
      }
    }
  }

  /** Canonical names written under another suffix are ignored unless that
      suffix's dotted form ends with this one's. When this suffix is the
      longer one, its '.' would have to fall inside the 19-character head,
      which holds none. */
  lemma ForeignSnapshotIgnored(suffix: string, other: string, version: Long)
    requires !EndsWith("." + other, "." + suffix)
    ensures VersionOf(suffix, SnapshotFileName(other, version)) == Success(-1)
  {
    if |suffix| <= |other| {
      ShorterSuffixIgnored(suffix, other, version);
    } else {
      LongerSuffixIgnored(suffix, other, version);
    }
  }

  lemma ShorterSuffixIgnored(suffix: string, other: string, version: Long)
    requires |suffix| <= |other|
    requires !EndsWith("." + other, "." + suffix)
    ensures !EndsWith(SnapshotFileName(other, version), "." + suffix)
  {
    var name := SnapshotFileName(other, version);
    assert name == PaddedVersion(version) + ("." + other);
    EndsWithTail(PaddedVersion(version), "." + other, "." + suffix);
  }

  lemma LongerSuffixIgnored(suffix: string, other: string, version: Long)
    requires |suffix| > |other|
    ensures !EndsWith(SnapshotFileName(other, version), "." + suffix)
  {
    var name := SnapshotFileName(other, version);
    var head := PaddedVersion(version);
    PaddedVersionHasNoDot(version);
    assert name == head + ("." + other);
    if |suffix| + 1 <= |name| {
      var k := |name| - |suffix| - 1;
      assert name[k] == head[k];
      assert name[k..][0] != ("." + suffix)[0];
    }
  }

  /** The "XmlSnapshot" reader a subclass might define ignores files written
      under the default suffix. */
  lemma XmlReaderIgnoresDefaultSnapshots(version: Long)
    ensures VersionOf("XmlSnapshot", SnapshotFileName(DefaultSuffix, version)) == Success(-1)
  {
    assert !EndsWith("." + DefaultSuffix, ".XmlSnapshot");
    ForeignSnapshotIgnored("XmlSnapshot", DefaultSuffix, version);
  }

  /** A name whose digits exceed the long range throws, blocking recovery. */
  lemma OverflowingNameThrows(suffix: string)
    ensures VersionOf(suffix, Decimal(MaxLong + 1) + ("." + suffix))
         == Failure(NumberFormat(Decimal(MaxLong + 1)))
  {
    DigitsHaveNoDot(Decimal(MaxLong + 1));
    ParseLongOverflow();
    DotFreeMarkerFirstAtEnd(suffix, Decimal(MaxLong + 1));
    UnparseablePrefixThrows(suffix, Decimal(MaxLong + 1));
  }

  /** Written as the code does it, version -1 gets the name
      "00000000000000000-1" + "." + suffix, which `version` cannot parse:
      its '-' is not in front. The same holds for every negative version of
      at most 17 digits, so a snapshot written under one blocks recovery. */
  lemma NegativeVersionUnreadable(suffix: string)
    ensures SnapshotFileName(suffix, -1) == "00000000000000000-1" + ("." + suffix)
    ensures VersionOf(suffix, SnapshotFileName(suffix, -1)).Failure?
  {
    var prefix := "00000000000000000-1";
    MinusOneName(suffix);
    assert '.' !in prefix by {
      forall i | 0 <= i < |prefix|
        ensures prefix[i] != '.'
      {
      }
    }
    assert prefix[17] == '-';
    MisplacedSignRejected(prefix);
    VersionOfDotFreePrefix(suffix, prefix);
  }

  lemma MinusOneName(suffix: string)
    ensures SnapshotFileName(suffix, -1) == "00000000000000000-1" + ("." + suffix)
  {
    assert Decimal(1) == "1";
    assert LongToString(-1) == "-1";
    var fileName := ZeroPrefix + "-1";
    assert |fileName| == 21;
    assert fileName[2..] == "00000000000000000-1";
  }

  /** A negative version of 19 digits loses its '-' when cut to 19
      characters, so its snapshot is read back as the positive version. */
  lemma NegativeVersionAliases(suffix: string, version: Long)
    requires -MaxLong <= version <= -1_000_000_000_000_000_000
    ensures VersionOf(suffix, SnapshotFileName(suffix, version)) == Success(-version)
  {
    var m: nat := -(version as int);
    var d := Decimal(m);
    MaxLongBelowPow10();
    DecimalLength(m, 19);
    Pow10Of18();
    DecimalLengthAtLeast(m, 19);
    assert LongToString(version) == "-" + d;
    var fileName := ZeroPrefix + ("-" + d);
    assert |fileName| == 39;
    assert PaddedVersion(version) == fileName[20..] == d;
    assert SnapshotFileName(suffix, version) == d + ("." + suffix);
    DigitsHaveNoDot(d);
    VersionOfDotFreePrefix(suffix, d);
    ParseLongDigits(d);
  }
}

=== FILE: snapshot_store.dfy ===
/** SnapshotManager's store: recovery of the latest snapshot from a directory
    and the temp-file-then-rename write of a new one. The directory is an
    immutable map from file names to contents, and the serialisation hooks
    (`writeSnapshot(Object, OutputStream)` / `readSnapshot(InputStream)`)
    are a codec passed in as a pair of functions. */
module SnapshotStore {
  import opened Results
  import opened JavaLong
  import opened SnapshotNaming

  /** The contents of a file. */
  type Blob = seq<bv8>

  /** A snapshot directory: the name of every file in it and its contents. */
  type Directory = map<string, Blob>

  /** The serialisation hooks. `decode` gives None where readObject would
      throw (a truncated stream, a class that cannot be found). */
  datatype Codec<!S> = Codec(encode: S -> Blob, decode: Blob -> Option<S>)

  /** What a codec must promise: whatever it writes, it reads back. */
  ghost predicate RoundTrips<S(!new)>(codec: Codec<S>) {
    forall s :: codec.decode(codec.encode(s)) == Some(s)
  }

  /** A constructed SnapshotManager: `recoveredPrevalentSystem()` and
      `recoveredVersion()`. */
  datatype Recovered<S> = Recovered(system: S, version: Long)

  /** Every name in the listing can be given to `version` without throwing. */
  ghost predicate AllParse(suffix: string, names: set<string>) {
    forall n :: n in names ==> VersionOf(suffix, n).Success?
  }

  /** `latest` is what `latestVersion()` promises for these names: zero or
      more, at least every version a name denotes, and, when positive, the
      version of some name in the listing. */
  ghost predicate IsLatestVersion(suffix: string, names: set<string>, latest: int) {
    && 0 <= latest
    && (forall n :: n in names && VersionOf(suffix, n).Success? ==> VersionOf(suffix, n).value <= latest)
    && (latest > 0 ==> exists n :: n in names && VersionOf(suffix, n) == Success(latest))
  }

  /** The latest version of a listing is determined by the listing. */
  lemma LatestIsUnique(suffix: string, names: set<string>, a: int, b: int)
    requires IsLatestVersion(suffix, names, a) && IsLatestVersion(suffix, names, b)
    ensures a == b
  {
  }

  /** `latestVersion()`: scans the listing (in whatever order File.list()
      returns it) for the greatest version, starting from zero. A listing
      that cannot be read, or a name `version` cannot parse, raises. */
  method LatestVersion(suffix: string, dir: Option<Directory>) returns (r: Result<Long>)
    ensures dir.None? ==> r == Failure(ListingUnavailable)
    ensures dir.Some? ==> (r.Success? <==> AllParse(suffix, dir.value.Keys))
    ensures r.Success? ==> dir.Some? && IsLatestVersion(suffix, dir.value.Keys, r.value)
    ensures r.Failure? && dir.Some? ==>
      exists n :: n in dir.value && VersionOf(suffix, n) == Failure(r.error)
  {
    if dir.None? {
      return Failure(ListingUnavailable);
    }
    var names := dir.value.Keys;
    var remaining := names;
    var result: Long := 0;
    while remaining != {}
      invariant remaining <= names
      invariant AllParse(suffix, names - remaining)
      invariant IsLatestVersion(suffix, names - remaining, result)
      decreases remaining
    {
      var name :| name in remaining;
      var candidate := VersionOf(suffix, name);
      if candidate.Failure? {
        return Failure(candidate.error);
      }
      if candidate.value > result {
        result := candidate.value;
      }
      remaining := remaining - {name};
    }
    assert names - remaining == names;
    r := Success(result);
  }

  /** `readSnapshot(version)`: decodes the canonical file of a version. */
  function ReadSnapshot<S>(codec: Codec<S>, suffix: string, files: Directory, version: Long): (r: Result<S>)
    ensures var name := SnapshotFileName(suffix, version);
      && (name !in files ==> r == Failure(FileNotFound(name)))
      && (name in files && codec.decode(files[name]).None? ==> r == Failure(CorruptSnapshot(name)))
      && (name in files && codec.decode(files[name]).Some? ==> r == Success(codec.decode(files[name]).value))
      && (r.Success? ==> name in files && codec.decode(files[name]) == Some(r.value))
  {
    var name := SnapshotFileName(suffix, version);
    if name !in files then Failure(FileNotFound(name))
    else match codec.decode(files[name])
      case None => Failure(CorruptSnapshot(name))
      case Some(system) => Success(system)
  }

  /** The constructor's choice once the latest version is known: version
      zero keeps the caller's object and reads nothing; any other version
      is read from its canonical file. */
  function RecoverAt<S>(codec: Codec<S>, suffix: string, original: S, files: Directory, latest: Long): (r: Result<Recovered<S>>)
    requires 0 <= latest
    ensures r.Success? ==> r.value.version == latest
    ensures latest == 0 ==> r == Success(Recovered(original, 0))
    ensures latest > 0 ==> (r.Success? <==> ReadSnapshot(codec, suffix, files, latest).Success?)
    ensures latest > 0 && r.Success? ==> Some(r.value.system) == codec.decode(files[SnapshotFileName(suffix, latest)])
  {
    if latest == 0 then Success(Recovered(original, 0))
    else
      var system :- ReadSnapshot(codec, suffix, files, latest);
      Success(Recovered(system, latest))
  }

  /** The SnapshotManager constructor: recovers the latest snapshot from the
      directory, or keeps the original object when there is none. */
  method Recover<S>(codec: Codec<S>, suffix: string, original: S, dir: Option<Directory>)
    returns (r: Result<Recovered<S>>)
    ensures dir.None? ==> r == Failure(ListingUnavailable)
    ensures dir.Some? && !AllParse(suffix, dir.value.Keys) ==> r.Failure? && r.error.NumberFormat?
    ensures dir.Some? && AllParse(suffix, dir.value.Keys) ==>
      exists latest: Long :: IsLatestVersion(suffix, dir.value.Keys, latest)
        && r == RecoverAt(codec, suffix, original, dir.value, latest)
    ensures r.Success? ==> dir.Some? && IsLatestVersion(suffix, dir.value.Keys, r.value.version)
    ensures r.Success? && r.value.version == 0 ==> r.value.system == original
    ensures r.Success? && r.value.version > 0 ==>
      var name := SnapshotFileName(suffix, r.value.version);
      name in dir.value && codec.decode(dir.value[name]) == Some(r.value.system)
  {
    var latest := LatestVersion(suffix, dir);
    if latest.Failure? {
      if dir.Some? {
        ghost var n :| n in dir.value && VersionOf(suffix, n) == Failure(latest.error);
      }
      return Failure(latest.error);
    }
    r := RecoverAt(codec, suffix, original, dir.value, latest.value);
  }

  /** Where `writeSnapshot` can stop: File.createTempFile throws, writing the
      temp file throws after `partial` reached it, renameTo returns false,
      or nothing goes wrong. */
  datatype WriteFault = NoFault | TempCreationFault | SerialisationFault(partial: Blob) | RenameFault

  /** The directory after a write, and whether the write threw. */
  datatype Written = Written(files: Directory, outcome: Outcome)

  /** The two directories agree on every name outside `touched`. */
  ghost predicate AgreeOutside(a: Directory, b: Directory, touched: set<string>) {
    forall n :: n !in touched ==> (n in a <==> n in b) && (n in a ==> a[n] == b[n])
  }

  /** `writeSnapshot(prevalentSystem, version)`: serialise into a fresh temp
      file, delete the canonical file, rename the temp file onto it. */
  function WriteSnapshot<S>(codec: Codec<S>, suffix: string, files: Directory, state: S,
                            version: Long, nonce: nat, fault: WriteFault): (w: Written)
    requires TempFileName(version, nonce) !in files
    ensures w.outcome.Pass? <==> fault.NoFault?
    ensures var permanent, temp := SnapshotFileName(suffix, version), TempFileName(version, nonce);
      && AgreeOutside(files, w.files, {permanent, temp})
      && (fault.NoFault? ==>
            permanent in w.files && w.files[permanent] == codec.encode(state) && temp !in w.files)
      && (fault.RenameFault? ==>
            && w.outcome == Fail(RenameFailed(temp, permanent))
            && permanent !in w.files
            && temp in w.files && w.files[temp] == codec.encode(state))
      && (fault.TempCreationFault? ==> w == Written(files, Fail(TempCreationFailed)))
      && (fault.SerialisationFault? ==>
            && w.outcome == Fail(SerialisationFailed)
            && w.files == files[temp := fault.partial])
      && (permanent in w.files ==>
            w.files[permanent] == codec.encode(state)
            || (permanent in files && w.files[permanent] == files[permanent]))
  {
    var temp := TempFileName(version, nonce);
    var permanent := SnapshotFileName(suffix, version);
    TempIsNotCanonical(suffix, version, nonce, version);
    match fault
    case TempCreationFault => Written(files, Fail(TempCreationFailed))
    case SerialisationFault(partial) => Written(files[temp := partial], Fail(SerialisationFailed))
    case RenameFault =>
      var deleted := files[temp := codec.encode(state)] - {permanent};
      Written(deleted, Fail(RenameFailed(temp, permanent)))
    case NoFault =>
      var deleted := files[temp := codec.encode(state)] - {permanent};
      Written((deleted - {temp})[permanent := codec.encode(state)], Pass)
  }

  /** A temp file name is never the canonical name of any snapshot. */
  lemma TempIsNotCanonical(suffix: string, version: Long, nonce: nat, other: Long)
    ensures TempFileName(version, nonce) != SnapshotFileName(suffix, other)
  {
    TempNameIgnored(suffix, version, nonce);
    var name := SnapshotFileName(suffix, other);
    assert name[19] == '.';
  }

  /** A canonical name always denotes its own version, so it is never one of
      the names `version` gives -1. */
  lemma IgnoredNameIsNotCanonical(suffix: string, name: string, latest: Long)
    requires VersionOf(suffix, name) == Success(-1)
    requires 0 <= latest
    ensures name != SnapshotFileName(suffix, latest)
  {
    VersionRoundTrip(suffix, latest);
  }

  /** An entry whose name `version` reads as -1 changes nothing about
      recovery: not whether the listing parses, not the latest version, and
      not what is read for it. */
  lemma IgnoredEntryIrrelevant<S>(codec: Codec<S>, suffix: string, original: S, files: Directory,
                                  name: string, blob: Blob, latest: Long)
    requires VersionOf(suffix, name) == Success(-1)
    requires 0 <= latest
    ensures AllParse(suffix, files[name := blob].Keys) <==> AllParse(suffix, files.Keys)
    ensures IsLatestVersion(suffix, files[name := blob].Keys, latest) <==> IsLatestVersion(suffix, files.Keys, latest)
    ensures RecoverAt(codec, suffix, original, files[name := blob], latest)
         == RecoverAt(codec, suffix, original, files, latest)
  {
    IgnoredEntryKeepsLatest(suffix, files, name, blob, latest);
    IgnoredNameIsNotCanonical(suffix, name, latest);
    assert SnapshotFileName(suffix, latest) in files[name := blob] <==> SnapshotFileName(suffix, latest) in files;
  }

  lemma IgnoredEntryKeepsLatest(suffix: string, files: Directory, name: string, blob: Blob, latest: Long)
    requires VersionOf(suffix, name) == Success(-1)
    ensures AllParse(suffix, files[name := blob].Keys) <==> AllParse(suffix, files.Keys)
    ensures IsLatestVersion(suffix, files[name := blob].Keys, latest) <==> IsLatestVersion(suffix, files.Keys, latest)
  {
    var after := files[name := blob];
    assert after.Keys == files.Keys + {name};
    if IsLatestVersion(suffix, after.Keys, latest) && latest > 0 {
      var n :| n in after.Keys && VersionOf(suffix, n) == Success(latest);
      assert n != name;
    }
  }

  /** A temp file left behind by an interrupted write never influences
      recovery. */
  lemma LeftoverTempIgnored<S>(codec: Codec<S>, suffix: string, original: S, files: Directory,
                               version: Long, nonce: nat, blob: Blob, latest: Long)
    requires 0 <= latest
    ensures var after := files[TempFileName(version, nonce) := blob];
      && (AllParse(suffix, after.Keys) <==> AllParse(suffix, files.Keys))
      && (IsLatestVersion(suffix, after.Keys, latest) <==> IsLatestVersion(suffix, files.Keys, latest))
      && RecoverAt(codec, suffix, original, after, latest) == RecoverAt(codec, suffix, original, files, latest)
  {
    TempNameIgnored(suffix, version, nonce);
    IgnoredEntryIrrelevant(codec, suffix, original, files, TempFileName(version, nonce), blob, latest);
  }

  /** When renameTo fails, the directory recovers as if the old canonical
      file of that version had simply been deleted: the old snapshot is lost
      and the temp file holding the new one is ignored. */
  lemma FailedRenameLosesSnapshot<S>(codec: Codec<S>, suffix: string, original: S, files: Directory,
                                     state: S, version: Long, nonce: nat, latest: Long)
    requires TempFileName(version, nonce) !in files
    requires 0 <= latest
    ensures var after := WriteSnapshot(codec, suffix, files, state, version, nonce, RenameFault).files;
      var before := files - {SnapshotFileName(suffix, version)};
      && SnapshotFileName(suffix, version) !in after
      && (AllParse(suffix, after.Keys) <==> AllParse(suffix, before.Keys))
      && (IsLatestVersion(suffix, after.Keys, latest) <==> IsLatestVersion(suffix, before.Keys, latest))
      && RecoverAt(codec, suffix, original, after, latest) == RecoverAt(codec, suffix, original, before, latest)
  {
    var temp := TempFileName(version, nonce);
    var permanent := SnapshotFileName(suffix, version);
    var before := files - {permanent};
    TempIsNotCanonical(suffix, version, nonce, version);
    assert WriteSnapshot(codec, suffix, files, state, version, nonce, RenameFault).files
        == before[temp := codec.encode(state)];
    LeftoverTempIgnored(codec, suffix, original, before, version, nonce, codec.encode(state), latest);
  }

  /** Writing a snapshot at a positive version no lower than any version in
      the directory makes it the one recovery picks, and recovery reads back
      exactly the state that was written. */
  lemma WriteThenRecover<S(!new)>(codec: Codec<S>, suffix: string, original: S, files: Directory,
                                  state: S, version: Long, nonce: nat)
    requires RoundTrips(codec)
    requires TempFileName(version, nonce) !in files
    requires 0 < version
    requires AllParse(suffix, files.Keys)
    requires forall n :: n in files ==> VersionOf(suffix, n).value <= version
    ensures var after := WriteSnapshot(codec, suffix, files, state, version, nonce, NoFault).files;
      && AllParse(suffix, after.Keys)
      && IsLatestVersion(suffix, after.Keys, version)
      && RecoverAt(codec, suffix, original, after, version) == Success(Recovered(state, version))
  {
    var temp := TempFileName(version, nonce);
    var permanent := SnapshotFileName(suffix, version);
    var after := WriteSnapshot(codec, suffix, files, state, version, nonce, NoFault).files;
    TempIsNotCanonical(suffix, version, nonce, version);
    assert after == ((files - {permanent}) - {temp})[permanent := codec.encode(state)];
    VersionRoundTrip(suffix, version);
    assert after.Keys <= files.Keys + {permanent};
    assert permanent in after.Keys;
  }

  /** A file for version 0 is never read: its version does not exceed the
      starting value of the scan, so the original object is kept. */
  lemma ZeroSnapshotIgnored<S>(codec: Codec<S>, suffix: string, original: S, blob: Blob)
    ensures var files := map[SnapshotFileName(suffix, 0) := blob];
      && AllParse(suffix, files.Keys)
      && IsLatestVersion(suffix, files.Keys, 0)
      && RecoverAt(codec, suffix, original, files, 0) == Success(Recovered(original, 0))
  {
    VersionRoundTrip(suffix, 0);
    var files := map[SnapshotFileName(suffix, 0) := blob];
    assert files.Keys == {SnapshotFileName(suffix, 0)};
  }

  /** With snapshots at versions 3, 7 and 19 and a leftover temp file, the
      latest version is 19 and recovery decodes the version-19 file. */
  lemma NewestSnapshotChosen<S>(codec: Codec<S>, suffix: string, original: S,
                                b3: Blob, b7: Blob, b19: Blob, tempBlob: Blob, nonce: nat)
    ensures var files := map[SnapshotFileName(suffix, 3) := b3, SnapshotFileName(suffix, 7) := b7,
                             SnapshotFileName(suffix, 19) := b19, TempFileName(20, nonce) := tempBlob];
      && AllParse(suffix, files.Keys)
      && IsLatestVersion(suffix, files.Keys, 19)
      && (RecoverAt(codec, suffix, original, files, 19).Success? <==> codec.decode(b19).Some?)
      && (codec.decode(b19).Some? ==>
            RecoverAt(codec, suffix, original, files, 19) == Success(Recovered(codec.decode(b19).value, 19)))
  {
    var n3, n7, n19 := SnapshotFileName(suffix, 3), SnapshotFileName(suffix, 7), SnapshotFileName(suffix, 19);
    var files := map[n3 := b3, n7 := b7, n19 := b19];
    ThreeSnapshots(suffix, b3, b7, b19);
    TempIsNotCanonical(suffix, 20, nonce, 19);
    assert files[TempFileName(20, nonce) := tempBlob]
        == map[n3 := b3, n7 := b7, n19 := b19, TempFileName(20, nonce) := tempBlob];
    LeftoverTempIgnored(codec, suffix, original, files, 20, nonce, tempBlob, 19);
  }

  lemma ThreeSnapshots(suffix: string, b3: Blob, b7: Blob, b19: Blob)
    ensures var files := map[SnapshotFileName(suffix, 3) := b3, SnapshotFileName(suffix, 7) := b7,
                             SnapshotFileName(suffix, 19) := b19];
      && AllParse(suffix, files.Keys)
      && IsLatestVersion(suffix, files.Keys, 19)
      && SnapshotFileName(suffix, 19) in files && files[SnapshotFileName(suffix, 19)] == b19
  {
    var empty: Directory := map[];
    AddCanonical(suffix, empty, 3, b3, 0);
    var f3 := empty[SnapshotFileName(suffix, 3) := b3];
    AddCanonical(suffix, f3, 7, b7, 3);
    var f7 := f3[SnapshotFileName(suffix, 7) := b7];
    AddCanonical(suffix, f7, 19, b19, 7);
    assert f7[SnapshotFileName(suffix, 19) := b19]
        == map[SnapshotFileName(suffix, 3) := b3, SnapshotFileName(suffix, 7) := b7,
               SnapshotFileName(suffix, 19) := b19];
  }

  /** Adding (or replacing) the canonical file of a version keeps the
      listing parseable and raises the latest version to that version if it
      was lower. */
  lemma AddCanonical(suffix: string, files: Directory, version: Long, blob: Blob, latest: Long)
    requires 0 <= version
    requires AllParse(suffix, files.Keys) && IsLatestVersion(suffix, files.Keys, latest)
    ensures var after := files[SnapshotFileName(suffix, version) := blob];
      && AllParse(suffix, after.Keys)
      && IsLatestVersion(suffix, after.Keys, if version > latest then version else latest)
  {
    var name := SnapshotFileName(suffix, version);
    VersionRoundTrip(suffix, version);
    var after := files[name := blob];
    assert after.Keys == files.Keys + {name};
    var top := if version > latest then version else latest;
    if top > 0 {
      if version > latest {
        assert name in after.Keys && VersionOf(suffix, name) == Success(top);
      } else {
        var n :| n in files.Keys && VersionOf(suffix, n) == Success(latest);
        assert n in after.Keys;
      }
    }
  }

  /** A non-canonical name such as "5.snapshot" still sets the latest
      version, but recovery then looks for the canonical file of that
      version, which does not exist, and fails. */
  lemma UnpaddedNameNotFound<S>(codec: Codec<S>, suffix: string, original: S, blob: Blob)
    ensures var files := map[LongToString(5) + ("." + suffix) := blob];
      && AllParse(suffix, files.Keys)
      && IsLatestVersion(suffix, files.Keys, 5)
      && RecoverAt(codec, suffix, original, files, 5) == Failure(FileNotFound(SnapshotFileName(suffix, 5)))
  {
    UnpaddedNameVersion(suffix, 5);
    CanonicalName(suffix, 5);
    var name := LongToString(5) + ("." + suffix);
    assert |LongToString(5)| == 1;
    assert |name| != |SnapshotFileName(suffix, 5)|;
    var files := map[name := blob];
    assert files.Keys == {name};
  }

  /** A lone re-suffixed copy "0000000000000000009." + suffix + "." + suffix
      makes 9 the latest version, and recovery then fails because the
      canonical file for 9 does not exist. */
  lemma ResuffixedCopyNotFound<S>(codec: Codec<S>, suffix: string, original: S, blob: Blob)
    ensures var files := map[SnapshotFileName(suffix, 9) + ("." + suffix) := blob];
      && AllParse(suffix, files.Keys)
      && IsLatestVersion(suffix, files.Keys, 9)
      && RecoverAt(codec, suffix, original, files, 9) == Failure(FileNotFound(SnapshotFileName(suffix, 9)))
  {
    ResuffixedCopyVersion(suffix, 9);
    var name := SnapshotFileName(suffix, 9) + ("." + suffix);
    assert |name| != |SnapshotFileName(suffix, 9)|;
    var files := map[name := blob];
    assert files.Keys == {name};
  }
}
